=== FILE: README.md ===
# Morse code extension: a verified model

This project models the core of a MakeCode extension for Morse code, `morse.ts`.
The extension has two halves.

- **Encoder.** Text becomes dots, dashes and spacing marks. The lookup table is a
  64-character string laid out as a binary heap: the dot child of node `i` is
  `2i+1` and its dash child is `2i+2`. `encodeChar` finds a character in the
  table and climbs from its node to the root to rebuild its code. `encode` joins
  the codes of a text. Two consecutive characters are joined by one space, a
  space in the text becomes `_`, and a newline is copied.
- **Decoder.** A key is pressed and released. Each release is read as a dot, a
  dash or an over-long press by its duration. Each dot or dash moves down the
  same heap, clamped at the last index 63. The symbols are kept in a buffer of at
  most seven. A pause flushes the letter reached to the registered handlers. A
  periodic tick forces that flush when the key is left alone.

The model has three modules.

- `MorseTree` (`morse_tree.dfy`) holds the table and the heap arithmetic.
  - `Walk` is the decoder's clamped walk down from a node.
  - `PathTo` is the encoder's climb back to the root.
  - Lemmas prove that the two are inverse to each other. They also prove that
    from six symbols on the walk sits at index 63.
- `MorseEncoding` (`morse_encoding.dfy`) holds `EncodeChar` and `Encode`.
  - Both are methods with the loops of `morse.ts`. Each is proved equal to a
    specification function (`CharCode`, `EncodeText`).
  - A reference reader of encoded text (`DecodeText`) walks the same tree as the
    decoder. It is the partner of `encode`. `EncodeRoundTrip` proves that reading
    the encoded text gives back the input, upper-cased, with characters missing
    from the table shown as `?`, and every `?` in the input dropped, because its
    code is empty.
- `MorseDecoder` (`morse_decoder.dfy`) holds the class `Decoder`, whose fields are
  the module-level variables of `morse.ts`.
  - `Valid()` keeps the thresholds in the ranges the setters enforce.
  - `Valid()` also keeps the tree index equal to the walk of the buffered
    symbols. This holds even after the buffer stops growing, because by then
    the index is already pinned at 63.
  - Each method states the new state as a function of the old one: the letter
    (`Tap`, `AfterPress`), the handler calls (`FlushEvents`, `PressEvents`), and
    the timestamps.
  - Lemmas connect the decoder back to the encoder. Keying the code of a
    character and pausing reports that character (`TypeCharCode`,
    `FlushCharCode`).

How the outside world is represented:

- The clock `control.millis()` is the `now` argument of `KeyDown`, `KeyUp` and
  `Tick`.
- The body of the 100 ms periodic task is the method `Tick`.
- The two user callbacks are each a "handler registered" flag plus an
  append-only log `events`. The log records the calls a handler would receive,
  in order.

`encode` (morse.ts:343) decides on the inter-letter space by the previous input
character. So a `?` in the text, whose code is empty, is still followed by a
space before the next letter.

## Model

| member | source | states |
|---|---|---|
| `MorseTree.TableLayout` | morse.ts:20-25 | the table written as eight rows of eight is exactly the extension's 64-character literal: 64 entries, last index 63, `?` at the root index 0, which is also the error character, and a buffer cap of 7 |
| `MorseTree.Parent` | morse.ts:320 | `Math.idiv(i - 1, 2)` of a non-root node is a node strictly above it, of which it is the dot child (`2p+1`) or the dash child (`2p+2`) |
| `MorseTree.SymbolAt` | morse.ts:315-319 | the parity test picks the symbol of the edge into the node: the node is twice its parent plus that symbol's step |
| `MorseTree.Advance` | morse.ts:206 | one dot or dash step stays in the table (1..63) and sticks at 63 once twice the node plus the symbol passes the last index |
| `MorseTree.AdvanceChild` | morse.ts:314-320 | below the last index, a step lands on a node whose parent (`idiv(i-1, 2)`) is the node it came from and whose parity gives back the symbol |
| `MorseTree.ChildParent` | morse.ts:315-320 | the parent and parity of a child node give back the node and the symbol it was reached by |
| `MorseTree.Walk` | morse.ts:205-230 | a walk of dots and dashes stays in the table and leaves the root as soon as one symbol is fed |
| `MorseTree.PathTo` | morse.ts:313-321 | the climb from a node yields only dots and dashes, and it is empty exactly at the root |
| `MorseTree.WalkClamps` | morse.ts:206 | clamping after every step is the same as clamping the unbounded heap index once at the end |
| `MorseTree.ValueDepth` | morse.ts:20 | a code of length d names a node of heap depth d, between 2^d-1 and 2^(d+1)-2 |
| `MorseTree.ValuePathTo` | morse.ts:314-320 | reading the climbed path down again names the node climbed from |
| `MorseTree.PathToValue` | morse.ts:314-320 | climbing from the node a code names gives back that code |
| `MorseTree.PathToDepth` | morse.ts:20-21 | every node of the 64-entry table is at most six symbols below the root |
| `MorseTree.WalkPathTo` | morse.ts:206 | replaying the code of any table node from the root ends at that node, so the clamp never bites |
| `MorseTree.PathToWalk` | morse.ts:206-209 | a code of at most five symbols walks to a node below 63 whose path is that code |
| `MorseTree.WalkSaturates` | morse.ts:206-209 | from six symbols on, the walk is at the last index 63 |
| `MorseTree.Upper` | morse.ts:308 | `toUpperCase` on one character never leaves a lower-case ASCII letter: `a`..`z` go to the letter at the same place in `A`..`Z`, and every other character is unchanged |
| `MorseTree.IndexOf` | morse.ts:309 | `indexOf` gives -1 exactly when the character is absent, and otherwise its first position |
| `MorseTree.IndexOfAt` | morse.ts:309 | a position holding the character with no earlier occurrence is what `indexOf` returns |
| `MorseTree.TableFirst` | morse.ts:308-309 | every entry past the root other than `?` is the first occurrence of its character, so `indexOf` finds it at that very node, and it is unchanged by `toUpperCase` |
| `MorseEncoding.CharCode` | morse.ts:304-323 | a character absent from the table (after upper-casing) gives `?`; otherwise the result is dots and dashes, at most six |
| `MorseEncoding.EncodeChar` | morse.ts:304-323 | the climbing loop builds exactly the path from the root to the character's first node |
| `MorseEncoding.CharCodeRoundTrip` | morse.ts:308-322 | for a character found at a node past the root, walking its code from the root reaches that node, where the table holds the upper-cased character; the code fits the 7-symbol buffer |
| `MorseEncoding.IndexRoundTrip` | morse.ts:304-323 | for every node 1..63 holding a character other than `?`, walking from the root along the code `encodeChar` gives that character returns to that node |
| `MorseEncoding.QuestionMarkCode` | morse.ts:309-313 | `?` is found at the root, so its code is empty |
| `MorseEncoding.CharCodeIgnoresCase` | morse.ts:308 | a lower-case ASCII letter has the code of its upper-case form |
| `MorseEncoding.CharCodeAt` | morse.ts:309-321 | an upper-case character first found at node i is encoded as the path to i |
| `MorseEncoding.CodeOfA` | morse.ts:304-323 | `A` is encoded as `.-` |
| `MorseEncoding.CodeOfB` | morse.ts:304-323 | `B` is encoded as `-...` |
| `MorseEncoding.Piece` | morse.ts:335-347 | what one input character adds: `_` exactly for a space, a newline exactly for a newline, and otherwise the character's code, preceded by one space exactly when the previous input character exists and is neither a space nor a newline (`Separates`); only `?` can add nothing; only dots, dashes, spaces, `_`, newlines and `?` appear |
| `MorseEncoding.EncodeText` | morse.ts:331-351 | the encoded text uses only dots, dashes, spaces, `_`, newlines and `?`, and when the input has no `?` it is at least as long as the input (every character leaves a mark) |
| `MorseEncoding.EncodeTextSnoc` | morse.ts:334-349 | one more input character appends exactly its piece, chosen by the character before it |
| `MorseEncoding.Encode` | morse.ts:331-351 | the loop with `lastC` produces the text of the spacing policy: `_` for a space, a copied newline, and a character's code preceded by one space exactly when a previous character exists and is neither a space nor a newline |
| `MorseEncoding.EncodeLetterPair` | morse.ts:342-346 | two letters in a row are joined by exactly one space |
| `MorseEncoding.EncodeSpacedPair` | morse.ts:336-346 | a space between two letters becomes `_` alone, with no space added on either side |
| `MorseEncoding.EncodeAB` | morse.ts:331-351 | `AB` is encoded as `.- -...` |
| `MorseEncoding.EncodeASpaceB` | morse.ts:331-351 | `A B` is encoded as `.-_-...` |
| `MorseEncoding.FeedCode` | morse.ts:205-230 | reading dots and dashes only moves the reader's walk, exactly as the decoder's dot and dash do |
| `MorseEncoding.ReadCharCode` | morse.ts:304-323 | reading the code of one character from the root leaves its node pending and flushes to its normalised form |
| `MorseEncoding.ReadPiece` | morse.ts:334-348 | reading what `encode` appends for one character adds that character's normalised form |
| `MorseEncoding.ReadEncoded` | morse.ts:331-351 | after the encoding of any text the reader is at the node of the last character and has read back the normalised text |
| `MorseEncoding.EncodeRoundTrip` | morse.ts:331-351 | decoding the output of `encode` gives back the input upper-cased, with characters missing from the table as `?` and `?` itself dropped |
| `MorseEncoding.NormalizedPlainText` | morse.ts:331-351 | for text made of table characters, spaces and newlines, that round trip gives back exactly the upper-cased input |
| `MorseDecoder.Constrain` | morse.ts:100-101 | `Math.constrain` returns a value in the range, returns the input unchanged when it is already in range, sends a value below the range to the lower bound and one above it to the upper bound |
| `MorseDecoder.Classify` | morse.ts:74-82 | a press reads as a dot exactly when it lasts at most the dot limit, as a dash exactly when it lasts longer than the dot limit and less than the dash limit, and as too long (restart) exactly otherwise |
| `MorseDecoder.AfterPress` | morse.ts:72-83 | the letter after a release is back at the root exactly when the press was too long; a dot or a dash always leaves the root |
| `MorseDecoder.AfterPressWellFormed` | morse.ts:72-83 | whatever a release is read as, a consistent letter stays consistent |
| `MorseDecoder.SymbolEcho` | morse.ts:205-230 | what `dot` and `dash` pass to the symbol handler is three characters: a double quote, the symbol's own character, a double quote |
| `MorseDecoder.Echo` | morse.ts:210-212 | a handler is called exactly when it is registered (the `!= null` guard), and then with that one call |
| `MorseDecoder.PressEvents` | morse.ts:210-212 | a release calls the symbol handler at most once: exactly when it is a dot or a dash and a handler is registered, with the symbol in quotes |
| `MorseDecoder.Elapsed` | morse.ts:52-55 | the gap test never holds while no time is recorded |
| `MorseDecoder.ElapsedLater` | morse.ts:52-55 | once more than a limit has passed since a recorded time, that stays so at every later instant and for every shorter limit |
| `MorseDecoder.LetterEnds` | morse.ts:355-358 | the tick's first test (a release recorded, a letter in progress, more than the symbol gap since the release) implies the gap test of `keyDown` |
| `MorseDecoder.TickLetterEvents` | morse.ts:355-362 | the tick's first test reports nothing when no release is recorded or no letter is in progress, at most two calls otherwise, and with a code handler the last call is the table character at the node with the buffer |
| `MorseDecoder.TickWordEvents` | morse.ts:364-369 | the tick's second test reports nothing without a recorded last release; every call it makes is a space, and with a code handler the last call is the space with an empty code |
| `MorseDecoder.ConstrainIdempotent` | morse.ts:100-101 | clamping an already clamped value changes nothing |
| `MorseDecoder.SettersKeepOrder` | morse.ts:99-139 | whatever the arguments, the two setters produce 1 ≤ maxDot ≤ 5000, 2·maxDot ≤ maxDash ≤ 15000, 1 ≤ maxSymbols ≤ 5000 and maxSymbols ≤ maxLetters ≤ 15000 |
| `MorseDecoder.ClassifyMonotone` | morse.ts:74-82 | a longer press never reads as a shorter symbol: dot, then dash, then too long |
| `MorseDecoder.ClassifyBoundaries` | morse.ts:74-82 | with the setters' thresholds, a press of the dot limit is a dot, one millisecond more is a dash when the dot limit is at least 2, and a press of the dash limit is too long |
| `MorseDecoder.NoDashWindow` | morse.ts:74-77 | with the dot limit at 1 and the dash limit at 2 (which `setMaxDurationDotDash(1, 2)` allows), no duration reads as a dash |
| `MorseDecoder.WellFormed` | morse.ts:205-230 | a consistent letter is at the root exactly when its buffer is empty |
| `MorseDecoder.Push` | morse.ts:207-209 | the buffer keeps what it held and grows by at most one symbol; it grows, by the symbol given, exactly when it held fewer than seven |
| `MorseDecoder.Tap` | morse.ts:205-230 | a dot or a dash always leaves the root |
| `MorseDecoder.FlushEvents` | morse.ts:246-265 | a short pause reports nothing; any other pause calls each registered handler once, symbol handler first, with `""` for a letter break and `" "` for a word break; with a code handler the last call is a space with an empty code for a word break, and the table character at the node with the buffer for a letter break |
| `MorseDecoder.Typed` | morse.ts:205-230 | keying any symbols after a reset leaves the tree index in the table |
| `MorseDecoder.TapWellFormed` | morse.ts:205-230 | a dot or a dash keeps the index equal to the walk of the buffered symbols, with at most seven of them |
| `MorseDecoder.TypedCode` | morse.ts:205-230 | keying a code after a reset reaches the node the code walks to, and the buffer holds the first seven symbols of the code |
| `MorseDecoder.TypedWellFormed` | morse.ts:205-230 | every letter keyed from a reset is consistent |
| `MorseDecoder.TypeCharCode` | morse.ts:304-323 | keying the code that `encodeChar` gives a table character lands on that character's node, with the whole code in the buffer |
| `MorseDecoder.FlushCharCode` | morse.ts:240-267 | an inter-letter pause after that code gives the symbol handler `""` and the code handler the upper-cased character with its code |
| `MorseDecoder.FlushEmptyLetter` | morse.ts:258-264 | a pause before any symbol reports the root's `?` with an empty code |
| `MorseDecoder.Decoder.Valid` | morse.ts:99-139 | in a consistent decoder the dot limit is below the dash limit, the symbol gap is at most the letter gap, and the index is at the root exactly when the buffer is empty |
| `MorseDecoder.Decoder.constructor` | morse.ts:28-41 | the load-time state: root, empty buffer, thresholds 200/1000/500/2000, no timestamps, no handlers |
| `MorseDecoder.Decoder.OnNewSymbol` | morse.ts:183-185 | registers or clears the symbol handler and changes nothing else |
| `MorseDecoder.Decoder.OnCodeSelected` | morse.ts:194-196 | registers or clears the code handler and changes nothing else |
| `MorseDecoder.Decoder.Dot` | morse.ts:205-213 | the index becomes min(2·index+1, 63); `.` is buffered only below seven symbols; the symbol handler gets `"."` in quotes; the invariant holds |
| `MorseDecoder.Decoder.Dash` | morse.ts:222-230 | the index becomes min(2·index+2, 63); `-` is buffered only below seven symbols; the symbol handler gets `"-"` in quotes; the invariant holds |
| `MorseDecoder.Decoder.Silence` | morse.ts:240-267 | no kind or a short pause changes nothing; otherwise the handlers get the letter at the index with the buffer (inter-letter) or a space with an empty code (inter-word), and decoding restarts |
| `MorseDecoder.Decoder.ResetDecoding` | morse.ts:276-279 | the index goes to the root and the buffer is emptied, whatever they were, so a second reset changes nothing |
| `MorseDecoder.Decoder.ResetTiming` | morse.ts:169-173 | all three timestamps are cleared |
| `MorseDecoder.Decoder.KeyDown` | morse.ts:49-62 | an inter-letter flush happens exactly when a release is recorded and more than the symbol gap has passed; afterwards the press time is `now` and both release times are cleared |
| `MorseDecoder.Decoder.KeyUp` | morse.ts:70-87 | with a recorded press, a duration up to the dot limit acts as a dot, one below the dash limit as a dash, and a longer one restarts decoding; with none, decoding is untouched; in every case the press time is cleared and both release times become `now` |
| `MorseDecoder.Decoder.SetMaxDurationDotDash` | morse.ts:99-102 | the dot limit is clamped to 1..5000 and the dash limit to twice the new dot limit..15000 |
| `MorseDecoder.Decoder.SetMaxSilenceBetweenSymbolsLetters` | morse.ts:136-139 | the symbol gap is clamped to 1..5000 and the letter gap to the new symbol gap..15000 |
| `MorseDecoder.Decoder.MaxDotTime` | morse.ts:111-113 | returns the stored dot limit, which lies in 1..5000 |
| `MorseDecoder.Decoder.MaxDashTime` | morse.ts:122-124 | returns the stored dash limit, which lies between twice the dot limit and 15000 |
| `MorseDecoder.Decoder.MaxBetweenSymbolTime` | morse.ts:148-150 | returns the stored symbol gap, which lies in 1..5000 |
| `MorseDecoder.Decoder.MaxBetweenLetterTime` | morse.ts:159-161 | returns the stored letter gap, which lies between the symbol gap and 15000 |
| `MorseDecoder.Decoder.PeekCode` | morse.ts:288-290 | the one character the table holds at the node the buffered symbols walk to; `?` when nothing is buffered |
| `MorseDecoder.Decoder.PeekSequence` | morse.ts:299-301 | the buffered symbols: dots and dashes, at most seven |
| `MorseDecoder.Decoder.Tick` | morse.ts:353-371 | an inter-letter flush clears the release time only when one is recorded, a letter is in progress and the symbol gap has passed, leaving the last-release time alone; independently, an inter-word flush clears the last-release time once the letter gap has passed |
| `MorseDecoder.KeyPressed` | morse.ts:28-62 | a freshly loaded decoder with a code handler, after a press at time 0: only the press time is recorded, the letter is at the root and nothing is reported |
| `MorseDecoder.PressDot` | morse.ts:70-87 | released 100 ms after that press, with the default thresholds, the key is read as a dot: the letter is `.` at node 1, nothing is reported yet, and both release times are the release instant; the four thresholds stay at their defaults, so a session can go on from here |
| `MorseDecoder.KeyLetterE` | morse.ts:49-87 | one short press followed by a tick after the symbol gap gives the code handler `E` with `.` |
| `MorseDecoder.ResetTwice` | morse.ts:276-301 | after two resets in a row the buffer is empty and the peeked character is `?` |
| `MorseDecoder.ClampDashTime` | morse.ts:99-102 | asking for a dash limit of 1 with a dot limit of 200 gives a dash limit of 400 |

## Left out

- The clock and the scheduler. `control.millis()` is an argument `now`. The periodic task (`loops.everyInterval`, 100 ms) is the method `Tick`, and its caller decides when to call it. Timestamps are integers, and no monotonicity of `now` is assumed.
- Callback behaviour. A handler is only present or absent. What a handler does is not modelled, and neither is a handler that calls back into the decoder. The log records the calls in order.
- The host delivers key and tick calls one at a time. The model treats each call as atomic and has no interleaving.
- The editor annotations (`//%` lines), and the display names and numeric values (3, 7, 0) of the `Silence` kinds. The decoder only compares kinds with each other, so `SilenceKind` is a plain datatype.
- JavaScript numbers are floating point. All times and indices here are integers. `Math.idiv` is integer division on a non-negative dividend, and `Math.constrain` is an integer clamp.
- `toUpperCase` only maps the ASCII letters `a`..`z`. `for...of` iterates over the characters of a Dafny string, which are Unicode scalar values.
- `EncodeChar`: the branch that returns `null` for an argument whose length is not 1 is not modelled. The method takes one character, and `encode` only passes it single characters.
- The agreement of the whole table with International Morse code (ITU-R M.1677-1) is not proved entry by entry. Only `A` and `B` are worked through. The table is taken as `morse.ts` gives it.
- `DecodeText` (the reader of encoded text) is a reference definition against which `encode` is checked. The extension itself has no such function.
- The nested `if` tests of `keyUp`, `keyDown` and the tick are written through the pure functions `Classify`, `Elapsed` and `LetterEnds`. These functions test the same side-effect-free conditions in the same order as `morse.ts` (morse.ts:52-55, 74-77, 355-358, 364-366), so nothing is lost.
- Handler timing inside `silence`: the model computes both handler calls, then appends them to the log together. `morse.ts` calls the two handlers one after the other. The log contents and their order are the same.

=== FILE: morse_decoder.dfy ===
/** Morse to text: the key-timing state machine of the extension.
    The module-level variables of `morse.ts` become the fields of one `Decoder`;
    the clock is the `now` argument of the methods that read it, the periodic
    task is the `Tick` method, and the two user callbacks become flags saying
    whether one is registered plus a log of the calls they would receive. */
module MorseDecoder {
  import opened MorseTree
  import opened MorseEncoding

  /** The kinds of pause of the extension's `Silence` enum. The decoder only ever
      compares kinds with each other, so their numeric values are not kept. */
  datatype SilenceKind = InterLetter | InterWord | Small

  /** One call of a registered handler: the symbol handler receives a string,
      the code handler a decoded character and the symbols it was read from. */
  datatype Event = SymbolEvent(symbol: string) | CodeEvent(code: string, sequence: string)

  /** The letter being keyed: the node of the tree reached and the symbols typed. */
  datatype Letter = Letter(state: int, sequence: string)

  const Start: Letter := Letter(StartState, "")

  /** What a consistent letter looks like: the node lies in the table, at most
      seven symbols are kept, and the node is the one those symbols lead to. */
  predicate WellFormed(l: Letter)
    ensures WellFormed(l) ==> (l.state == StartState <==> l.sequence == [])
  {
    && 0 <= l.state <= MaxState
    && |l.sequence| <= MaxSequenceLength
    && IsCode(l.sequence)
    && l.state == Walk(StartState, l.sequence)
  }

  /** Appends a symbol to the buffer while it holds fewer than seven. */
  function Push(sequence: string, ch: char): (r: string)
    ensures sequence <= r && |r| <= |sequence| + 1
    ensures |r| == |sequence| + 1 <==> |sequence| < MaxSequenceLength
    ensures |r| > |sequence| ==> r[|sequence|] == ch
  {
    if |sequence| < MaxSequenceLength then sequence + [ch] else sequence
  }

  /** The effect of `dot` (or `dash`) on the letter being keyed. */
  function Tap(l: Letter, s: Symbol): (r: Letter)
    requires 0 <= l.state <= MaxState
    ensures r.state != StartState
  {
    Letter(Advance(l.state, s), Push(l.sequence, SymbolChar(s)))
  }

  /** The letter reached by keying `code` after a reset. */
  function Typed(code: string): (r: Letter)
    ensures 0 <= r.state <= MaxState
  {
    if code == [] then Start
    else Tap(Typed(code[..|code| - 1]), SymbolOf(code[|code| - 1]))
  }

  /** What the symbol handler is given for a dot or a dash: the symbol in double quotes. */
  function SymbolEcho(s: Symbol): (r: string)
    ensures |r| == 3 && r[0] == '"' && r[1] == SymbolChar(s) && r[2] == '"'
  {
    match s
    case Dot => "\".\""
    case Dash => "\"-\""
  }

  /** A handler call, made only when that handler is registered. */
  function Echo(present: bool, e: Event): (r: seq<Event>)
    ensures r == [] <==> !present
    ensures r != [] ==> r == [e]
  {
    if present then [e] else []
  }

  /** The handler calls of a flushing pause after letter `l`. */
  function FlushEvents(kind: SilenceKind, l: Letter, hasSymbolHandler: bool, hasCodeHandler: bool): (r: seq<Event>)
    requires 0 <= l.state <= MaxState
    ensures kind == Small ==> r == []
    ensures kind != Small ==> |r| == (if hasSymbolHandler then 1 else 0) + (if hasCodeHandler then 1 else 0)
    ensures kind != Small && hasSymbolHandler ==> r[0].SymbolEvent?
    ensures kind == InterLetter && hasSymbolHandler ==> r[0] == SymbolEvent("")
    ensures kind == InterWord && hasSymbolHandler ==> r[0] == SymbolEvent(" ")
    ensures kind == InterWord && hasCodeHandler ==> r[|r| - 1] == CodeEvent(" ", "")
    ensures kind == InterLetter && hasCodeHandler ==> r[|r| - 1] == CodeEvent([Tree[l.state]], l.sequence)
  {
    if kind == Small then []
    else if kind == InterWord then
      Echo(hasSymbolHandler, SymbolEvent(" ")) + Echo(hasCodeHandler, CodeEvent(" ", ""))
    else
      Echo(hasSymbolHandler, SymbolEvent("")) + Echo(hasCodeHandler, CodeEvent([Tree[l.state]], l.sequence))
  }

  /** `Math.constrain` on integers: `v` clamped to `lo .. hi`. */
  function Constrain(v: int, lo: int, hi: int): (r: int)
    ensures lo <= hi ==> lo <= r <= hi
    ensures lo <= v <= hi ==> r == v
    ensures v < lo ==> r == lo
    ensures lo <= v && hi < v ==> r == hi
  {
    if v < lo then lo else if v > hi then hi else v
  }

  /** How `keyUp` reads a press of `duration` milliseconds: a dot, a dash, or
      (None) a press too long to be either. */
  function Classify(duration: int, maxDot: int, maxDash: int): (r: Option<Symbol>)
    ensures r == Some(Dot) <==> duration <= maxDot
    ensures r == Some(Dash) <==> maxDot < duration < maxDash
    ensures r == None <==> maxDot < duration && maxDash <= duration
  {
    if duration <= maxDot then Some(Dot)
    else if duration > maxDot && duration < maxDash then Some(Dash)
    else None
  }

  /** The letter after a release read as `press`: one more symbol, or a fresh
      start after a press too long to be either. */
  function AfterPress(l: Letter, press: Option<Symbol>): (r: Letter)
    requires 0 <= l.state <= MaxState
    ensures press.None? <==> r == Start
  {
    match press
    case Some(s) => Tap(l, s)
    case None => Start
  }

  /** The handler calls of a release read as `press`. */
  function PressEvents(press: Option<Symbol>, hasSymbolHandler: bool): (r: seq<Event>)
    ensures |r| <= 1
    ensures r != [] <==> press.Some? && hasSymbolHandler
    ensures r != [] ==> r[0] == SymbolEvent(SymbolEcho(press.value))
  {
    match press
    case Some(s) => Echo(hasSymbolHandler, SymbolEvent(SymbolEcho(s)))
    case None => []
  }

  /** Whether more than `limit` milliseconds have passed since the recorded time. */
  predicate Elapsed(since: Option<int>, now: int, limit: int)
    ensures Elapsed(since, now, limit) ==> since.Some?
  {
    since.Some? && now - since.value > limit
  }

  /** Once a gap has passed, it stays passed: at every later instant, and for
      every shorter limit. */
  lemma ElapsedLater(since: Option<int>, now: int, later: int, limit: int, shorter: int)
    requires Elapsed(since, now, limit) && now <= later && shorter <= limit
    ensures Elapsed(since, later, shorter)
  {
  }

  predicate DurationsOk(maxDot: int, maxDash: int) {
    1 <= maxDot <= 5000 && 2 * maxDot <= maxDash <= 15000
  }

  predicate SilencesOk(maxSymbols: int, maxLetters: int) {
    1 <= maxSymbols <= 5000 && maxSymbols <= maxLetters <= 15000
  }

  /** The tick's first test: a letter is in progress and the symbol gap has passed
      since the last release. */
  predicate LetterEnds(keyUp: Option<int>, state: int, now: int, maxSymbols: int)
    ensures LetterEnds(keyUp, state, now, maxSymbols) ==> Elapsed(keyUp, now, maxSymbols)
  {
    keyUp.Some? && state != StartState && now - keyUp.value > maxSymbols
  }

  /** The handler calls of the tick's first test. */
  function TickLetterEvents(keyUp: Option<int>, l: Letter, now: int, maxSymbols: int,
                            hasSymbolHandler: bool, hasCodeHandler: bool): (r: seq<Event>)
    requires 0 <= l.state <= MaxState
    ensures keyUp.None? || l.state == StartState ==> r == []
    ensures |r| <= 2
    ensures hasCodeHandler && LetterEnds(keyUp, l.state, now, maxSymbols) ==>
      |r| > 0 && r[|r| - 1] == CodeEvent([Tree[l.state]], l.sequence)
  {
    if LetterEnds(keyUp, l.state, now, maxSymbols)
    then FlushEvents(InterLetter, l, hasSymbolHandler, hasCodeHandler)
    else []
  }

  /** The handler calls of the tick's second test: the letter gap has passed
      since the last release. */
  function TickWordEvents(keyLastUp: Option<int>, now: int, maxLetters: int,
                          hasSymbolHandler: bool, hasCodeHandler: bool): (r: seq<Event>)
    ensures keyLastUp.None? ==> r == []
    ensures forall k :: 0 <= k < |r| ==> r[k] == SymbolEvent(" ") || r[k] == CodeEvent(" ", "")
    ensures hasCodeHandler && Elapsed(keyLastUp, now, maxLetters) ==> |r| > 0 && r[|r| - 1] == CodeEvent(" ", "")
  {
    if Elapsed(keyLastUp, now, maxLetters)
    then FlushEvents(InterWord, Start, hasSymbolHandler, hasCodeHandler)
    else []
  }

  // ---------------------------------------------------------------------------
  // Facts about keying

  /** A dot or a dash keeps the letter consistent: past seven symbols the buffer
      stops growing, but by then the node is already pinned at the last index. */
  lemma TapWellFormed(l: Letter, s: Symbol)
    requires WellFormed(l)
    ensures WellFormed(Tap(l, s))
  {
    var ch := SymbolChar(s);
    assert SymbolOf(ch) == s;
    if |l.sequence| < MaxSequenceLength {
      WalkSnoc(StartState, l.sequence, ch);
      assert IsCode(l.sequence + [ch]);
    } else {
      WalkSaturates(l.sequence);
    }
  }

  /** Whatever a release is read as, the letter stays consistent. */
  lemma AfterPressWellFormed(l: Letter, press: Option<Symbol>)
    requires WellFormed(l)
    ensures WellFormed(AfterPress(l, press))
  {
    if press.Some? {
      TapWellFormed(l, press.value);
    }
  }

  /** Keying a code after a reset reaches the node the code walks to, and the
      buffer holds the first seven symbols of the code. */
  lemma {:induction false} TypedCode(code: string)
    requires IsCode(code)
    ensures Typed(code) == Letter(Walk(StartState, code), code[..Min(|code|, MaxSequenceLength)])
  {
    if code != [] {
      var n := |code| - 1;
      var prefix, ch := code[..n], code[n];
      assert IsCode(prefix);
      TypedCode(prefix);
      assert SymbolChar(SymbolOf(ch)) == ch;
      if n < MaxSequenceLength {
        assert prefix[..n] + [ch] == code[..n + 1];
      } else {
        assert prefix[..MaxSequenceLength] == code[..MaxSequenceLength];
      }
    }
  }

  /** Every letter keyed from a reset is consistent. */
  lemma {:induction false} TypedWellFormed(code: string)
    ensures WellFormed(Typed(code))
  {
    if code != [] {
      TypedWellFormed(code[..|code| - 1]);
      TapWellFormed(Typed(code[..|code| - 1]), SymbolOf(code[|code| - 1]));
    }
  }

  /** Decoder against encoder: keying the code `encodeChar` gives a character of
      the table lands on that character's node, with its code in the buffer. */
  lemma TypeCharCode(c: char)
    requires IndexOf(Tree, Upper(c)) > 0
    ensures Typed(CharCode(c)) == Letter(IndexOf(Tree, Upper(c)), CharCode(c))
    ensures Tree[Typed(CharCode(c)).state] == Upper(c)
  {
    var code := CharCode(c);
    CharCodeRoundTrip(c);
    TypedCode(code);
    assert code[..|code|] == code;
  }

  /** The inter-letter pause after such a code reports the upper-cased character
      and its code to the two handlers. */
  lemma FlushCharCode(c: char)
    requires IndexOf(Tree, Upper(c)) > 0
    ensures FlushEvents(InterLetter, Typed(CharCode(c)), true, true)
         == [SymbolEvent(""), CodeEvent([Upper(c)], CharCode(c))]
  {
    TypeCharCode(c);
  }

  /** A pause before any symbol reports the root of the table, `?`, with an empty code. */
  lemma FlushEmptyLetter(hasSymbolHandler: bool)
    ensures FlushEvents(InterLetter, Start, hasSymbolHandler, true)
         == Echo(hasSymbolHandler, SymbolEvent("")) + [CodeEvent([ErrorCode], "")]
  {
  }

  // ---------------------------------------------------------------------------
  // Facts about timing

  /** Longer presses never read as shorter symbols: a dot, then a dash, then too long. */
  lemma ClassifyMonotone(d1: int, d2: int, maxDot: int, maxDash: int)
    requires d1 <= d2
    ensures Classify(d2, maxDot, maxDash) == Some(Dot) ==> Classify(d1, maxDot, maxDash) == Some(Dot)
    ensures Classify(d1, maxDot, maxDash) == None ==> Classify(d2, maxDot, maxDash) == None
  {
  }

  /** With thresholds the setters allow, the longest dot is a dot, the next
      millisecond is a dash as long as the dot limit is at least 2, and a press
      of the dash limit is too long. */
  lemma ClassifyBoundaries(maxDot: int, maxDash: int)
    requires DurationsOk(maxDot, maxDash)
    ensures Classify(maxDot, maxDot, maxDash) == Some(Dot)
    ensures maxDot >= 2 ==> Classify(maxDot + 1, maxDot, maxDash) == Some(Dash)
    ensures Classify(maxDash, maxDot, maxDash) == None
  {
  }

  /** With the dot limit at 1 and the dash limit at 2, no duration reads as a dash. */
  lemma NoDashWindow(duration: int)
    ensures Classify(duration, 1, 2) != Some(Dash)
  {
  }

  /** The setters' clamps always produce thresholds in order, whatever they are given. */
  lemma SettersKeepOrder(dotTime: int, dashTime: int, symbolTime: int, letterTime: int)
    ensures var maxDot := Constrain(dotTime, 1, 5000);
            DurationsOk(maxDot, Constrain(dashTime, 2 * maxDot, 15000))
    ensures var maxSymbols := Constrain(symbolTime, 1, 5000);
            SilencesOk(maxSymbols, Constrain(letterTime, maxSymbols, 15000))
  {
  }

  /** Clamping twice to the same range is clamping once. */
  lemma ConstrainIdempotent(v: int, lo: int, hi: int)
    requires lo <= hi
    ensures Constrain(Constrain(v, lo, hi), lo, hi) == Constrain(v, lo, hi)
  {
  }

  // ---------------------------------------------------------------------------
  // The decoder

  class Decoder {
    var state: int
    var sequence: string
    var maxDotTime: int
    var maxDashTime: int
    var maxBetweenSymbolsTime: int
    var maxBetweenLettersTime: int
    var keyDownEvent: Option<int>
    var keyUpEvent: Option<int>
    var keyLastUpEvent: Option<int>
    var hasSymbolHandler: bool
    var hasCodeHandler: bool
    /** The handler calls made so far, oldest first. */
    var events: seq<Event>

    function Current(): Letter
      reads this`state, this`sequence
    {
      Letter(state, sequence)
    }

    predicate Valid()
      reads this`state, this`sequence, this`maxDotTime, this`maxDashTime
      reads this`maxBetweenSymbolsTime, this`maxBetweenLettersTime
      ensures Valid() ==> maxDotTime < maxDashTime && maxBetweenSymbolsTime <= maxBetweenLettersTime
      ensures Valid() ==> (state == StartState <==> sequence == [])
    {
      && WellFormed(Current())
      && DurationsOk(maxDotTime, maxDashTime)
      && SilencesOk(maxBetweenSymbolsTime, maxBetweenLettersTime)
    }

    /** The state at load time: no letter, default thresholds, no key event, no handler. */
    constructor ()
      ensures Valid()
      ensures Current() == Start
      ensures maxDotTime == 200 && maxDashTime == 1000
      ensures maxBetweenSymbolsTime == 500 && maxBetweenLettersTime == 2000
      ensures keyDownEvent == None && keyUpEvent == None && keyLastUpEvent == None
      ensures !hasSymbolHandler && !hasCodeHandler && events == []
    {
      state := StartState;
      sequence := "";
      maxDotTime := 200;
      maxDashTime := 1000;
      maxBetweenSymbolsTime := 500;
      maxBetweenLettersTime := 2000;
      keyDownEvent := None;
      keyUpEvent := None;
      keyLastUpEvent := None;
      hasSymbolHandler := false;
      hasCodeHandler := false;
      events := [];
    }

    /** `onNewSymbol`: registers (or, with `present` false, clears) the symbol handler. */
    method OnNewSymbol(present: bool)
      modifies this`hasSymbolHandler
      ensures hasSymbolHandler == present
    {
      hasSymbolHandler := present;
    }

    /** `onCodeSelected`: registers (or clears) the code handler. */
    method OnCodeSelected(present: bool)
      modifies this`hasCodeHandler
      ensures hasCodeHandler == present
    {
      hasCodeHandler := present;
    }

    method Dot()
      requires Valid()
      modifies this`state, this`sequence, this`events
      ensures Valid()
      ensures Current() == Tap(old(Current()), Symbol.Dot)
      ensures events == old(events) + Echo(hasSymbolHandler, SymbolEvent(SymbolEcho(Symbol.Dot)))
    {
      ghost var next := Tap(Current(), Symbol.Dot);
      TapWellFormed(Current(), Symbol.Dot);
      state := Min(2 * state + Step(Symbol.Dot), MaxState);
      if |sequence| < MaxSequenceLength {
        sequence := sequence + [DotChar];
      }
      assert Current() == next;
      if hasSymbolHandler {
        events := events + [SymbolEvent("\".\"")];
      }
    }

    method Dash()
      requires Valid()
      modifies this`state, this`sequence, this`events
      ensures Valid()
      ensures Current() == Tap(old(Current()), Symbol.Dash)
      ensures events == old(events) + Echo(hasSymbolHandler, SymbolEvent(SymbolEcho(Symbol.Dash)))
    {
      ghost var next := Tap(Current(), Symbol.Dash);
      TapWellFormed(Current(), Symbol.Dash);
      state := Min(2 * state + Step(Symbol.Dash), MaxState);
      if |sequence| < MaxSequenceLength {
        sequence := sequence + [DashChar];
      }
      assert Current() == next;
      if hasSymbolHandler {
        events := events + [SymbolEvent("\"-\"")];
      }
    }

    method ResetDecoding()
      requires Valid()
      modifies this`state, this`sequence
      ensures Valid()
      ensures Current() == Start
    {
      state := StartState;
      sequence := "";
    }

    /** `silence`: a missing kind or a short pause does nothing; the other two
        report the letter (or a word break) to the handlers and start a new letter. */
    method Silence(kind: Option<SilenceKind>)
      requires Valid()
      modifies this`state, this`sequence, this`events
      ensures Valid()
      ensures kind == None || kind == Some(Small) ==>
        Current() == old(Current()) && events == old(events)
      ensures kind.Some? && kind.value != Small ==>
        Current() == Start &&
        events == old(events) + FlushEvents(kind.value, old(Current()), hasSymbolHandler, hasCodeHandler)
    {
      if kind == None || kind == Some(Small) {
        return;
      }
      var toSymbolHandler: seq<Event> := [];
      if hasSymbolHandler {
        if kind.value == InterWord {
          toSymbolHandler := [SymbolEvent(" ")];
        } else {
          toSymbolHandler := [SymbolEvent("")];
        }
      }
      var toCodeHandler: seq<Event> := [];
      if hasCodeHandler {
        if kind.value == InterWord {
          toCodeHandler := [CodeEvent(" ", "")];
        } else {
          var code := [Tree[state]];
          toCodeHandler := [CodeEvent(code, sequence)];
        }
      }
      events := events + (toSymbolHandler + toCodeHandler);
      ResetDecoding();
    }

    method ResetTiming()
      modifies this`keyDownEvent, this`keyUpEvent, this`keyLastUpEvent
      ensures keyDownEvent == None && keyUpEvent == None && keyLastUpEvent == None
    {
      keyDownEvent := None;
      keyUpEvent := None;
      keyLastUpEvent := None;
    }

    /** `keyDown` at time `now`: a long enough pause since the last release ends
        the letter; the press is then recorded and the release times forgotten. */
    method KeyDown(now: int)
      requires Valid()
      modifies this`state, this`sequence, this`events
      modifies this`keyDownEvent, this`keyUpEvent, this`keyLastUpEvent
      ensures Valid()
      ensures Elapsed(old(keyUpEvent), now, maxBetweenSymbolsTime) ==>
        Current() == Start &&
        events == old(events) + FlushEvents(InterLetter, old(Current()), hasSymbolHandler, hasCodeHandler)
      ensures !Elapsed(old(keyUpEvent), now, maxBetweenSymbolsTime) ==>
        Current() == old(Current()) && events == old(events)
      ensures keyDownEvent == Some(now) && keyUpEvent == None && keyLastUpEvent == None
    {
      if Elapsed(keyUpEvent, now, maxBetweenSymbolsTime) {
        Silence(Some(InterLetter));
      }
      keyUpEvent := None;
      keyLastUpEvent := None;
      keyDownEvent := Some(now);
    }

    /** `keyUp` at time `now`: the length of the press decides between a dot, a
        dash and starting over; either way the release is recorded. */
    method KeyUp(now: int)
      requires Valid()
      modifies this`state, this`sequence, this`events
      modifies this`keyDownEvent, this`keyUpEvent, this`keyLastUpEvent
      ensures Valid()
      ensures old(keyDownEvent) == None ==> Current() == old(Current()) && events == old(events)
      ensures old(keyDownEvent) != None ==>
        var press := Classify(now - old(keyDownEvent).value, maxDotTime, maxDashTime);
        Current() == AfterPress(old(Current()), press) &&
        events == old(events) + PressEvents(press, hasSymbolHandler)
      ensures keyDownEvent == None && keyUpEvent == Some(now) && keyLastUpEvent == Some(now)
    {
      if keyDownEvent != None {
        var duration := now - keyDownEvent.value;
        match Classify(duration, maxDotTime, maxDashTime) {
          case Some(Dot) => Dot();
          case Some(Dash) => Dash();
          case None =>
            ResetDecoding();
            ResetTiming();
        }
      }
      keyDownEvent := None;
      keyUpEvent := Some(now);
      keyLastUpEvent := Some(now);
    }

    /** `setMaxDurationDotDash`: the dot limit is clamped to 1..5000 and the dash
        limit to twice the new dot limit..15000. */
    method SetMaxDurationDotDash(dotTime: int, dashTime: int)
      requires Valid()
      modifies this`maxDotTime, this`maxDashTime
      ensures Valid()
      ensures maxDotTime == Constrain(dotTime, 1, 5000)
      ensures maxDashTime == Constrain(dashTime, 2 * maxDotTime, 15000)
    {
      maxDotTime := Constrain(dotTime, 1, 5000);
      maxDashTime := Constrain(dashTime, 2 * maxDotTime, 15000);
    }

    /** `setMaxSilenceBetweenSymbolsLetters`: the symbol gap is clamped to 1..5000
        and the letter gap to the new symbol gap..15000. */
    method SetMaxSilenceBetweenSymbolsLetters(symbolTime: int, letterTime: int)
      requires Valid()
      modifies this`maxBetweenSymbolsTime, this`maxBetweenLettersTime
      ensures Valid()
      ensures maxBetweenSymbolsTime == Constrain(symbolTime, 1, 5000)
      ensures maxBetweenLettersTime == Constrain(letterTime, maxBetweenSymbolsTime, 15000)
    {
      maxBetweenSymbolsTime := Constrain(symbolTime, 1, 5000);
      maxBetweenLettersTime := Constrain(letterTime, maxBetweenSymbolsTime, 15000);
    }

    function MaxDotTime(): (r: int)
      reads this
      requires Valid()
      ensures r == maxDotTime && 1 <= r <= 5000
    {
      maxDotTime
    }

    function MaxDashTime(): (r: int)
      reads this
      requires Valid()
      ensures r == maxDashTime && 2 * maxDotTime <= r <= 15000
    {
      maxDashTime
    }

    function MaxBetweenSymbolTime(): (r: int)
      reads this
      requires Valid()
      ensures r == maxBetweenSymbolsTime && 1 <= r <= 5000
    {
      maxBetweenSymbolsTime
    }

    function MaxBetweenLetterTime(): (r: int)
      reads this
      requires Valid()
      ensures r == maxBetweenLettersTime && maxBetweenSymbolsTime <= r <= 15000
    {
      maxBetweenLettersTime
    }

    /** `peekCode`: the character of the node reached by the symbols typed so far. */
    function PeekCode(): (r: string)
      reads this
      requires Valid()
      ensures |r| == 1 && r[0] == Tree[Walk(StartState, sequence)]
      ensures sequence == [] ==> r == [ErrorCode]
    {
      [Tree[state]]
    }

    /** `peekSequence`: the symbols typed so far, at most seven of them. */
    function PeekSequence(): (r: string)
      reads this
      requires Valid()
      ensures r == sequence && IsCode(r) && |r| <= MaxSequenceLength
    {
      sequence
    }

    /** The body of the task the extension runs every 100 ms, at time `now`: a
        letter in progress ends once the symbol gap has passed since the last
        release; independently, a word ends once the letter gap has passed. */
    method Tick(now: int)
      requires Valid()
      modifies this`state, this`sequence, this`events, this`keyUpEvent, this`keyLastUpEvent
      ensures Valid()
      ensures LetterEnds(old(keyUpEvent), old(state), now, maxBetweenSymbolsTime) ==> keyUpEvent == None
      ensures !LetterEnds(old(keyUpEvent), old(state), now, maxBetweenSymbolsTime) ==> keyUpEvent == old(keyUpEvent)
      ensures Elapsed(old(keyLastUpEvent), now, maxBetweenLettersTime) ==> keyLastUpEvent == None
      ensures !Elapsed(old(keyLastUpEvent), now, maxBetweenLettersTime) ==> keyLastUpEvent == old(keyLastUpEvent)
      ensures Current() ==
        if LetterEnds(old(keyUpEvent), old(state), now, maxBetweenSymbolsTime)
           || Elapsed(old(keyLastUpEvent), now, maxBetweenLettersTime)
        then Start else old(Current())
      ensures events == old(events)
        + TickLetterEvents(old(keyUpEvent), old(Current()), now, maxBetweenSymbolsTime, hasSymbolHandler, hasCodeHandler)
        + TickWordEvents(old(keyLastUpEvent), now, maxBetweenLettersTime, hasSymbolHandler, hasCodeHandler)
    {
      ghost var letter, logged := Current(), events;
      ghost var ends := LetterEnds(keyUpEvent, state, now, maxBetweenSymbolsTime);
      if LetterEnds(keyUpEvent, state, now, maxBetweenSymbolsTime) {
        Silence(Some(InterLetter));
        keyUpEvent := None;
      }
      assert events == logged + TickLetterEvents(old(keyUpEvent), letter, now, maxBetweenSymbolsTime, hasSymbolHandler, hasCodeHandler);
      assert Current() == if ends then Start else letter;
      if Elapsed(keyLastUpEvent, now, maxBetweenLettersTime) {
        Silence(Some(InterWord));
        keyLastUpEvent := None;
      }
    }
  }

  // ---------------------------------------------------------------------------
  // A session with the decoder

  /** A fresh decoder with a code handler, and the key pressed at time 0: the
      press is recorded and nothing else has happened. */
  method KeyPressed() returns (d: Decoder)
    ensures fresh(d) && d.Valid()
    ensures d.Current() == Start && d.events == [] && d.keyDownEvent == Some(0)
    ensures d.keyUpEvent == None && d.keyLastUpEvent == None
    ensures !d.hasSymbolHandler && d.hasCodeHandler
    ensures d.maxDotTime == 200 && d.maxDashTime == 1000
    ensures d.maxBetweenSymbolsTime == 500 && d.maxBetweenLettersTime == 2000
  {
    d := new Decoder();
    d.OnCodeSelected(true);
    d.KeyDown(0);
  }

  /** The key of `KeyPressed` released at time 100: with the default 200 ms dot
      limit the press is read as a dot, nothing is reported yet, and both
      release times are 100. */
  method PressDot() returns (d: Decoder)
    ensures fresh(d) && d.Valid()
    ensures d.Current() == Letter(1, ".") && d.events == []
    ensures d.keyUpEvent == Some(100) && d.keyLastUpEvent == Some(100)
    ensures !d.hasSymbolHandler && d.hasCodeHandler
    ensures d.maxDotTime == 200 && d.maxDashTime == 1000
    ensures d.maxBetweenSymbolsTime == 500 && d.maxBetweenLettersTime == 2000
  {
    d := KeyPressed();
    ShortPressIsDot();
    d.KeyUp(100);
  }

  /** One short press and a pause long enough to end the letter: the code
      handler receives `E` and `.`, and the decoder is back at the root. */
  method KeyLetterE() returns (d: Decoder)
    ensures d.events == [CodeEvent("E", ".")]
    ensures d.Current() == Start
  {
    d := PressDot();
    FlushLetterE();
    d.Tick(700);
  }

  /** The letter `E` (one dot, node 1) flushed to a code handler alone. */
  lemma FlushLetterE()
    ensures FlushEvents(InterLetter, Letter(1, "."), false, true) == [CodeEvent("E", ".")]
  {
  }

  /** A 100 ms press at the default limits, from the root: a dot, echoed to no one. */
  lemma ShortPressIsDot()
    ensures Classify(100 - 0, 200, 1000) == Some(Dot)
    ensures AfterPress(Start, Some(Dot)) == Letter(1, ".")
    ensures PressEvents(Some(Dot), false) == []
  {
  }

  /** `resetDecoding` twice in a row: both times the buffer is empty and the
      peeked character is the root's `?`. */
  method ResetTwice(d: Decoder)
    requires d.Valid()
    modifies d
    ensures d.Valid() && d.PeekSequence() == "" && d.PeekCode() == [ErrorCode]
  {
    d.ResetDecoding();
    d.ResetDecoding();
  }

  /** A dash limit below twice the dot limit is raised to twice the dot limit. */
  method ClampDashTime() returns (d: Decoder)
    ensures d.maxDotTime == 200 && d.maxDashTime == 400
  {
    d := new Decoder();
    d.SetMaxDurationDotDash(200, 1);
  }
}

=== FILE: morse_encoding.dfy ===
/** Text to Morse: `encodeChar` and `encode` of the extension, each as a method
    with its loop, specified by a function; a reference reader of the encoded
    text that decodes it with the same tree walk the key decoder uses; and the
    round trip between the two. */
module MorseEncoding {
  import opened MorseTree

  /** What `encodeChar` returns for one character: the error marker `?` when the
      (upper-cased) character is not in the table, otherwise the path to its
      first position in the table. */
  function CharCode(c: char): (r: string)
    ensures IndexOf(Tree, Upper(c)) == -1 ==> r == [ErrorCode]
    ensures IndexOf(Tree, Upper(c)) >= 0 ==> IsCode(r) && |r| <= 6
    ensures (r == []) == (c == ErrorCode)
  {
    var i := IndexOf(Tree, Upper(c));
    if i == -1 then [ErrorCode]
    else PathToDepth(i); PathTo(i)
  }

  /** `encodeChar`: look the character up, then climb from its node to the root,
      prepending a dot for every odd node and a dash for every even one. */
  method EncodeChar(character: char) returns (code: string)
    ensures code == CharCode(character)
  {
    var upper := Upper(character);
    var start := IndexOf(Tree, upper);
    if start == -1 {
      return [ErrorCode];
    }
    ghost var node := start;
    code := "";
    while start > 0
      invariant 0 <= start <= node
      invariant PathTo(start) + code == PathTo(node)
    {
      var parent := (start - 1) / 2;
      ghost var before, symbol := code, SymbolChar(SymbolAt(start));
      if start % 2 == 1 {
        code := [DotChar] + code;
      } else {
        code := [DashChar] + code;
      }
      assert code == [symbol] + before;
      assert PathTo(start) == PathTo(parent) + [symbol];
      AppendAssoc(PathTo(parent), [symbol], before);
      start := parent;
    }
    assert PathTo(start) == [];
    assert PathTo(start) + code == code;
  }

  lemma AppendAssoc(a: string, b: string, c: string)
    ensures (a + b) + c == a + (b + c)
  {
  }

  /** `encodeChar` round trip: for a character found at node `i > 0`, walking its
      code from the root reaches `i` again, and the table holds there the
      upper-cased character; the code fits the 7-symbol buffer of the decoder. */
  lemma CharCodeRoundTrip(c: char)
    requires IndexOf(Tree, Upper(c)) > 0
    ensures Walk(StartState, CharCode(c)) == IndexOf(Tree, Upper(c))
    ensures Tree[Walk(StartState, CharCode(c))] == Upper(c)
    ensures 0 < |CharCode(c)| < MaxSequenceLength
  {
    var i := IndexOf(Tree, Upper(c));
    WalkPathTo(i);
    PathToDepth(i);
  }

  /** The round trip indexed by node: for every node past the root that holds
      a character, replaying the code `encodeChar` gives that character from
      the root comes back to the node. */
  lemma IndexRoundTrip(i: int)
    requires 0 < i <= MaxState && Tree[i] != ErrorCode
    ensures Walk(StartState, CharCode(Tree[i])) == i
  {
    TableFirst(i);
    CharCodeRoundTrip(Tree[i]);
  }

  /** `?` is the first entry of the table, so its code is empty. */
  lemma QuestionMarkCode()
    ensures CharCode(ErrorCode) == ""
  {
    IndexOfAt(Tree, ErrorCode, 0);
  }

  /** ASCII letters are encoded without regard to case. */
  lemma CharCodeIgnoresCase(c: char)
    requires 'a' <= c <= 'z'
    ensures CharCode(c) == CharCode((c as int - 'a' as int + 'A' as int) as char)
  {
  }

  // ---------------------------------------------------------------------------
  // encode

  /** Whether the character before a letter asks for the inter-letter space:
      there is one, and it is neither a space nor a newline. */
  predicate Separates(prev: Option<char>) {
    prev.Some? && prev.value != ' ' && prev.value != '\n'
  }

  function LastOf(t: string): Option<char> {
    if t == [] then None else Some(t[|t| - 1])
  }

  /** The characters `encode` can produce: dots, dashes, the inter-letter space,
      the word mark `_`, newlines and the error marker `?`. */
  predicate MorseText(r: string) {
    forall k :: 0 <= k < |r| ==>
      r[k] in {DotChar, DashChar, ' ', '_', '\n', ErrorCode}
  }

  /** What `encode` appends for character `c` after the character `prev`. */
  function Piece(prev: Option<char>, c: char): (r: string)
    ensures MorseText(r)
    ensures (r == "_") == (c == ' ')
    ensures (r == "\n") == (c == '\n')
    ensures c != ErrorCode ==> r != []
    ensures c != ' ' && c != '\n' && Separates(prev) ==>
      |r| == |CharCode(c)| + 1 && r[0] == ' ' && r[1..] == CharCode(c)
    ensures c != ' ' && c != '\n' && !Separates(prev) ==> r == CharCode(c)
  {
    if c == ' ' then "_"
    else if c == '\n' then "\n"
    else if Separates(prev) then
      var r := " " + CharCode(c);
      assert r[0] == ' ' && r[1..] == CharCode(c);
      r
    else CharCode(c)
  }

  /** The text `encode` returns, built character by character from the left. */
  function EncodeText(t: string): (r: string)
    ensures MorseText(r)
    ensures ErrorCode !in t ==> |r| >= |t|
  {
    if t == [] then []
    else
      var n := |t| - 1;
      EncodeText(t[..n]) + Piece(LastOf(t[..n]), t[n])
  }

  lemma EncodeTextSnoc(t: string, c: char)
    ensures EncodeText(t + [c]) == EncodeText(t) + Piece(LastOf(t), c)
  {
    assert (t + [c])[..|t|] == t;
  }

  lemma EncodeTextPrefix(s: string, i: int)
    requires 0 <= i < |s|
    ensures EncodeText(s[..i + 1]) == EncodeText(s[..i]) + Piece(LastOf(s[..i]), s[i])
  {
    assert s[..i + 1][..i] == s[..i];
  }

  /** `encode`: one pass over the text, remembering the previous character. */
  method Encode(characters: string) returns (result: string)
    ensures result == EncodeText(characters)
  {
    result := "";
    var lastC: Option<char> := None;
    for i := 0 to |characters|
      invariant result == EncodeText(characters[..i])
      invariant lastC == LastOf(characters[..i])
    {
      var c := characters[i];
      ghost var before := result;
      if c == ' ' {
        result := result + "_";
        assert result == before + Piece(lastC, c);
      } else if c == '\n' {
        result := result + [c];
        assert result == before + Piece(lastC, c);
      } else {
        if lastC.Some? && lastC.value != ' ' && lastC.value != '\n' {
          result := result + " ";
        }
        var code := EncodeChar(c);
        result := result + code;
        assert result == before + Piece(lastC, c) by {
          if Separates(lastC) {
            AppendAssoc(before, " ", code);
          }
        }
      }
      EncodeTextPrefix(characters, i);
      lastC := Some(c);
    }
    assert characters[..|characters|] == characters;
  }

  // ---------------------------------------------------------------------------
  // Reading encoded text back

  /** A reader of encoded text: the tree node reached so far and the text decoded. */
  datatype Reader = Reader(state: int, text: string)

  const Fresh: Reader := Reader(StartState, "")

  /** The decoded text with the pending letter, if any, appended. */
  function Flushed(r: Reader): string
    requires 0 <= r.state <= MaxState
  {
    if r.state != StartState then r.text + [Tree[r.state]] else r.text
  }

  /** Reads one character: a dot or dash advances the walk exactly as the key
      decoder does; a space ends the letter (an inter-letter silence); `_` ends
      the letter and the word; anything else (a newline, the error marker) ends
      the letter and is copied. */
  function ReadChar(r: Reader, ch: char): (r': Reader)
    requires 0 <= r.state <= MaxState
    ensures 0 <= r'.state <= MaxState
  {
    if ch == DotChar || ch == DashChar then Reader(Advance(r.state, SymbolOf(ch)), r.text)
    else if ch == ' ' then Reader(StartState, Flushed(r))
    else if ch == '_' then Reader(StartState, Flushed(r) + " ")
    else Reader(StartState, Flushed(r) + [ch])
  }

  function Feed(r: Reader, s: string): (r': Reader)
    requires 0 <= r.state <= MaxState
    ensures 0 <= r'.state <= MaxState
  {
    if s == [] then r
    else ReadChar(Feed(r, s[..|s| - 1]), s[|s| - 1])
  }

  /** The text a reader recovers from an encoded string. */
  function DecodeText(s: string): string {
    Flushed(Feed(Fresh, s))
  }

  /** What one input character should read back as: its upper-cased self when the
      table holds it past the root, the error marker when the table lacks it,
      nothing for `?` (whose code is empty); spaces and newlines are kept. */
  function NormalChar(c: char): string {
    if c == ' ' || c == '\n' then [c]
    else
      var i := IndexOf(Tree, Upper(c));
      if i == -1 then [ErrorCode] else if i == 0 then "" else [Tree[i]]
  }

  function Normalized(t: string): string {
    if t == [] then []
    else Normalized(t[..|t| - 1]) + NormalChar(t[|t| - 1])
  }

  /** The node a reader is left at after the encoding of character `c`: the node
      of `c` when the table holds it past the root, otherwise the root. */
  function PendingAfter(c: char): int {
    if c == ' ' || c == '\n' then StartState
    else
      var i := IndexOf(Tree, Upper(c));
      if i > 0 then i else StartState
  }

  function Pending(t: string): int {
    if t == [] then StartState else PendingAfter(t[|t| - 1])
  }

  lemma {:induction false} FeedAppend(r: Reader, a: string, b: string)
    requires 0 <= r.state <= MaxState
    ensures Feed(r, a + b) == Feed(Feed(r, a), b)
  {
    if b == [] {
      assert a + b == a;
    } else {
      var n := |b| - 1;
      FeedAppend(r, a, b[..n]);
      assert (a + b)[..|a + b| - 1] == a + b[..n];
    }
  }

  /** Dots and dashes only move the walk. */
  lemma {:induction false} FeedCode(r: Reader, code: string)
    requires 0 <= r.state <= MaxState && IsCode(code)
    ensures Feed(r, code) == Reader(Walk(r.state, code), r.text)
  {
    if code != [] {
      var n := |code| - 1;
      assert IsCode(code[..n]);
      FeedCode(r, code[..n]);
    }
  }

  lemma FeedOne(r: Reader, ch: char)
    requires 0 <= r.state <= MaxState
    ensures Feed(r, [ch]) == ReadChar(r, ch)
  {
    assert [ch][..0] == [];
  }

  /** Reading the code of a character from the root, with `text` decoded so far. */
  lemma ReadCharCode(text: string, c: char)
    requires c != ' ' && c != '\n'
    ensures Feed(Reader(StartState, text), CharCode(c)).state == PendingAfter(c)
    ensures Flushed(Feed(Reader(StartState, text), CharCode(c))) == text + NormalChar(c)
  {
    var r := Reader(StartState, text);
    var i := IndexOf(Tree, Upper(c));
    if i == -1 {
      FeedOne(r, ErrorCode);
    } else {
      FeedCode(r, PathTo(i));
      if i > 0 {
        WalkPathTo(i);
      }
    }
  }

  /** Reading what `encode` appends for `c`; without a separator the reader must
      already be back at the root. */
  lemma ReadPiece(r: Reader, prev: Option<char>, c: char)
    requires 0 <= r.state <= MaxState
    requires !Separates(prev) ==> r.state == StartState
    ensures Feed(r, Piece(prev, c)).state == PendingAfter(c)
    ensures Flushed(Feed(r, Piece(prev, c))) == Flushed(r) + NormalChar(c)
  {
    if c == ' ' {
      FeedOne(r, '_');
    } else if c == '\n' {
      FeedOne(r, c);
    } else {
      if Separates(prev) {
        FeedAppend(r, " ", CharCode(c));
        FeedOne(r, ' ');
      }
      ReadCharCode(Flushed(r), c);
    }
  }

  /** The reader's state after the encoding of any text. */
  lemma {:induction false} ReadEncoded(t: string)
    ensures Feed(Fresh, EncodeText(t)).state == Pending(t)
    ensures Flushed(Feed(Fresh, EncodeText(t))) == Normalized(t)
  {
    if t != [] {
      var n := |t| - 1;
      var p, c := t[..n], t[n];
      ReadEncoded(p);
      FeedAppend(Fresh, EncodeText(p), Piece(LastOf(p), c));
      ReadPiece(Feed(Fresh, EncodeText(p)), LastOf(p), c);
    }
  }

  /** Round trip of `encode`: reading the encoded text back with the decoder's own
      tree walk yields the input, upper-cased, with every character missing from
      the table replaced by `?` and every `?` dropped. */
  lemma EncodeRoundTrip(t: string)
    ensures DecodeText(EncodeText(t)) == Normalized(t)
  {
    ReadEncoded(t);
  }

  /** A character of the table (past the root), a space or a newline reads back as
      its upper-cased self. */
  predicate Plain(c: char) {
    c == ' ' || c == '\n' || IndexOf(Tree, Upper(c)) > 0
  }

  /** Every character of `t` is `Plain`. */
  predicate AllPlain(t: string) {
    t == [] || (AllPlain(t[..|t| - 1]) && Plain(t[|t| - 1]))
  }

  /** The text upper-cased character by character (ASCII only). */
  function UpperText(t: string): (r: string)
    ensures |r| == |t|
  {
    if t == [] then [] else UpperText(t[..|t| - 1]) + [Upper(t[|t| - 1])]
  }

  /** A text of table letters, spaces and newlines reads back as its upper-cased self. */
  lemma {:induction false} NormalizedPlainText(t: string)
    requires AllPlain(t)
    ensures Normalized(t) == UpperText(t)
  {
    if t != [] {
      var n := |t| - 1;
      NormalizedPlainText(t[..n]);
      var c := t[n];
      assert Plain(c);
      assert NormalChar(c) == [Upper(c)];
    }
  }

  // ---------------------------------------------------------------------------
  // Worked examples of the spacing policy

  lemma EncodeOne(x: char)
    ensures EncodeText([x]) == Piece(None, x)
  {
    EncodeTextSnoc([], x);
    assert [] + [x] == [x];
  }

  lemma EncodeTwo(x: char, y: char)
    ensures EncodeText([x, y]) == Piece(None, x) + Piece(Some(x), y)
  {
    EncodeOne(x);
    EncodeTextSnoc([x], y);
    assert [x] + [y] == [x, y];
  }

  lemma EncodeThree(x: char, y: char, z: char)
    ensures EncodeText([x, y, z]) == Piece(None, x) + Piece(Some(x), y) + Piece(Some(y), z)
  {
    EncodeTwo(x, y);
    EncodeTextSnoc([x, y], z);
    assert [x, y] + [z] == [x, y, z];
  }

  /** Two letters in a row are joined by exactly one space. */
  lemma EncodeLetterPair(x: char, y: char)
    requires x != ' ' && x != '\n' && y != ' ' && y != '\n'
    ensures EncodeText([x, y]) == CharCode(x) + " " + CharCode(y)
  {
    EncodeTwo(x, y);
    AppendAssoc(CharCode(x), " ", CharCode(y));
  }

  /** A space between two letters becomes `_` alone, with no inter-letter space around it. */
  lemma EncodeSpacedPair(x: char, y: char)
    requires x != ' ' && x != '\n' && y != ' ' && y != '\n'
    ensures EncodeText([x, ' ', y]) == CharCode(x) + "_" + CharCode(y)
  {
    EncodeThree(x, ' ', y);
  }

  /** An upper-case character first found at node `i` of the table is encoded as the path to `i`. */
  lemma CharCodeAt(c: char, i: int)
    requires 0 < i < |Tree| && Upper(c) == c && Tree[i] == c && c !in Tree[..i]
    ensures CharCode(c) == PathTo(i)
  {
    IndexOfAt(Tree, c, i);
  }

  lemma PathToA()
    ensures PathTo(4) == ".-"
  {
  }

  lemma PathToB()
    ensures PathTo(23) == "-..."
  {
  }

  lemma CodeOfA()
    ensures CharCode('A') == ".-"
  {
    CharCodeAt('A', 4);
    PathToA();
  }

  lemma CodeOfB()
    ensures CharCode('B') == "-..."
  {
    CharCodeAt('B', 23);
    PathToB();
  }

  lemma JoinAB()
    ensures ".-" + " " + "-..." == ".- -..."
  {
  }

  lemma JoinASpaceB()
    ensures ".-" + "_" + "-..." == ".-_-..."
  {
  }

  lemma EncodeAB()
    ensures EncodeText("AB") == ".- -..."
  {
    EncodeLetterPair('A', 'B');
    CodeOfA();
    CodeOfB();
    JoinAB();
  }

  lemma EncodeASpaceB()
    ensures EncodeText("A B") == ".-_-..."
  {
    EncodeSpacedPair('A', 'B');
    CodeOfA();
    CodeOfB();
    JoinASpaceB();
  }
}

=== FILE: morse_tree.dfy ===
/** The Morse lookup table of the extension, laid out as a binary heap:
    the dot child of node `i` is `2i+1`, its dash child is `2i+2`.
    This module holds the table, the heap arithmetic that both the encoder
    and the decoder use, and the facts that tie the two walks together. */
module MorseTree {

  datatype Option<T> = None | Some(value: T)

  /** The 64-entry table; index 0 is the root and `?` marks unused nodes.
      It is the single string "?ETIANMSURWDKGOHVF?L?PJBXCYZQ??54?3???2??+????16=/?????7???8?90?",
      written in rows of eight so that the verifier can index into it. */
  const Tree: string :=
    "?ETIANMS" + "URWDKGOH" + "VF?L?PJB" + "XCYZQ??5" +
    "4?3???2?" + "?+????16" + "=/?????7" + "???8?90?"
  const MaxState: int := |Tree| - 1
  const StartState: int := 0
  const ErrorCode: char := '?'
  const MaxSequenceLength: int := 7
  const DotChar: char := '.'
  const DashChar: char := '-'

  /** The table is the extension's 64-character string, with `?` at the root;
      a letter is at most seven symbols long. */
  lemma TableLayout()
    ensures Tree == "?ETIANMSURWDKGOHVF?L?PJBXCYZQ??54?3???2??+????16=/?????7???8?90?"
    ensures |Tree| == 64 && MaxState == 63
    ensures Tree[StartState] == ErrorCode == '?' && StartState == 0
    ensures MaxSequenceLength == 7
  {
    TableHalves();
    TableWhole();
  }

  // The rows of `Tree` joined pairwise, one literal equality per lemma.
  lemma TableFirstQuarters()
    ensures "?ETIANMS" + "URWDKGOH" == "?ETIANMSURWDKGOH"
    ensures "VF?L?PJB" + "XCYZQ??5" == "VF?L?PJBXCYZQ??5"
  {
  }

  lemma TableLastQuarters()
    ensures "4?3???2?" + "?+????16" == "4?3???2??+????16"
    ensures "=/?????7" + "???8?90?" == "=/?????7???8?90?"
  {
  }

  lemma TableFirstHalf()
    ensures "?ETIANMSURWDKGOH" + "VF?L?PJBXCYZQ??5" == "?ETIANMSURWDKGOHVF?L?PJBXCYZQ??5"
  {
  }

  lemma TableSecondHalf()
    ensures "4?3???2??+????16" + "=/?????7???8?90?" == "4?3???2??+????16=/?????7???8?90?"
  {
  }

  lemma TableHalves()
    ensures Tree == "?ETIANMSURWDKGOHVF?L?PJBXCYZQ??5" + "4?3???2??+????16=/?????7???8?90?"
  {
    var r0, r1, r2, r3 := "?ETIANMS", "URWDKGOH", "VF?L?PJB", "XCYZQ??5";
    var r4, r5, r6, r7 := "4?3???2?", "?+????16", "=/?????7", "???8?90?";
    assert Tree == ((r0 + r1) + (r2 + r3)) + ((r4 + r5) + (r6 + r7));
    TableFirstQuarters();
    TableLastQuarters();
    TableFirstHalf();
    TableSecondHalf();
  }

  lemma TableWhole()
    ensures "?ETIANMSURWDKGOHVF?L?PJBXCYZQ??5" + "4?3???2??+????16=/?????7???8?90?"
         == "?ETIANMSURWDKGOHVF?L?PJBXCYZQ??54?3???2??+????16=/?????7???8?90?"
  {
  }

  datatype Symbol = Dot | Dash

  /** The offset a symbol adds to twice the current index (DOT = 1, DASH = 2). */
  function Step(s: Symbol): int {
    match s
    case Dot => 1
    case Dash => 2
  }

  function SymbolChar(s: Symbol): char {
    match s
    case Dot => DotChar
    case Dash => DashChar
  }

  /** Reads a code character; anything but a dot is taken as a dash. */
  function SymbolOf(ch: char): Symbol {
    if ch == DotChar then Dot else Dash
  }

  /** A string made only of dots and dashes. */
  predicate IsCode(s: string) {
    forall k :: 0 <= k < |s| ==> s[k] == DotChar || s[k] == DashChar
  }

  function Pow2(n: nat): (r: nat)
    ensures r >= 1
  {
    if n == 0 then 1 else 2 * Pow2(n - 1)
  }

  function Min(a: int, b: int): int {
    if a <= b then a else b
  }

  /** The parent of a non-root node (`Math.idiv(i - 1, 2)` in `encodeChar`). */
  function Parent(i: int): (r: int)
    requires i > 0
    ensures 0 <= r < i
    ensures i == 2 * r + 1 || i == 2 * r + 2
  {
    (i - 1) / 2
  }

  /** The symbol on the edge from `Parent(i)` down to `i`: odd nodes are dot children. */
  function SymbolAt(i: int): (r: Symbol)
    requires i > 0
    ensures i == 2 * Parent(i) + Step(r)
  {
    if i % 2 == 1 then Dot else Dash
  }

  /** One decoding step from node `state`, clamped at the last index of the table. */
  function Advance(state: int, s: Symbol): (r: int)
    requires 0 <= state <= MaxState
    ensures 0 < r <= MaxState
    ensures 2 * state + Step(s) > MaxState ==> r == MaxState
  {
    Min(2 * state + Step(s), MaxState)
  }

  /** Below the last index, a step goes to a child of the current node, along the
      edge labelled with the symbol given. */
  lemma AdvanceChild(state: int, s: Symbol)
    requires 0 <= state && 2 * state + Step(s) <= MaxState
    ensures Parent(Advance(state, s)) == state && SymbolAt(Advance(state, s)) == s
  {
    ChildParent(state, s);
  }

  /** The node reached by feeding `code`, symbol by symbol, to `Advance` from `state`. */
  function Walk(state: int, code: string): (r: int)
    requires 0 <= state <= MaxState
    ensures 0 <= r <= MaxState
    ensures code != [] ==> r > 0
  {
    if code == [] then state
    else Advance(Walk(state, code[..|code| - 1]), SymbolOf(code[|code| - 1]))
  }

  /** The code of node `i`: the symbols on the path from the root down to `i`. */
  function PathTo(i: nat): (r: string)
    ensures IsCode(r)
    ensures (r == []) == (i == 0)
  {
    if i == 0 then []
    else PathTo(Parent(i)) + [SymbolChar(SymbolAt(i))]
  }

  lemma Pow2Small()
    ensures Pow2(5) == 32 && Pow2(6) == 64 && Pow2(7) == 128
  {
    assert Pow2(1) == 2;
    assert Pow2(2) == 4;
    assert Pow2(3) == 8;
    assert Pow2(4) == 16;
  }

  lemma {:induction false} Pow2Monotone(m: nat, n: nat)
    requires m <= n
    ensures Pow2(m) <= Pow2(n)
  {
    if m < n {
      Pow2Monotone(m, n - 1);
    }
  }

  /** The index a code names in the unbounded heap, without the clamping of `Advance`. */
  function Value(code: string): nat {
    if code == [] then 0
    else 2 * Value(code[..|code| - 1]) + Step(SymbolOf(code[|code| - 1]))
  }

  /** The parent of a child is the node it was reached from, by the symbol it was reached by. */
  lemma ChildParent(p: int, s: Symbol)
    requires p >= 0
    ensures Parent(2 * p + Step(s)) == p && SymbolAt(2 * p + Step(s)) == s
  {
  }

  /** Walking one more symbol extends the walk by one `Advance`. */
  lemma WalkSnoc(state: int, code: string, ch: char)
    requires 0 <= state <= MaxState
    ensures Walk(state, code + [ch]) == Advance(Walk(state, code), SymbolOf(ch))
  {
    assert (code + [ch])[..|code|] == code;
  }

  lemma ValueSnoc(code: string, ch: char)
    ensures Value(code + [ch]) == 2 * Value(code) + Step(SymbolOf(ch))
  {
    assert (code + [ch])[..|code|] == code;
  }

  /** The decoder's walk from the root is the unbounded index, clamped once at
      the end: a walk that passes the last index stays there. */
  lemma {:induction false} WalkClamps(code: string)
    ensures Walk(StartState, code) == Min(Value(code), MaxState)
  {
    if code != [] {
      WalkClamps(code[..|code| - 1]);
    }
  }

  /** A code of length `d` names a node of depth `d`: one of `2^d - 1 .. 2^(d+1) - 2`. */
  lemma {:induction false} ValueDepth(code: string)
    ensures Pow2(|code|) - 1 <= Value(code) <= Pow2(|code| + 1) - 2
  {
    if code != [] {
      ValueDepth(code[..|code| - 1]);
    }
  }

  /** Climbing from a node and reading the path back down names the same node. */
  lemma {:induction false} ValuePathTo(i: nat)
    ensures Value(PathTo(i)) == i
  {
    if i > 0 {
      var p := Parent(i);
      ValuePathTo(p);
      ValueSnoc(PathTo(p), SymbolChar(SymbolAt(i)));
      assert SymbolOf(SymbolChar(SymbolAt(i))) == SymbolAt(i);
    }
  }

  /** Reading a code down from the root and climbing back up gives the code again. */
  lemma {:induction false} PathToValue(code: string)
    requires IsCode(code)
    ensures PathTo(Value(code)) == code
  {
    if code != [] {
      var n := |code| - 1;
      var prefix, ch := code[..n], code[n];
      assert IsCode(prefix);
      PathToValue(prefix);
      var v, v' := Value(code), Value(prefix);
      assert v == 2 * v' + Step(SymbolOf(ch));
      ChildParent(v', SymbolOf(ch));
      assert PathTo(v) == PathTo(v') + [SymbolChar(SymbolOf(ch))];
      assert SymbolChar(SymbolOf(ch)) == ch;
      assert code == prefix + [ch];
    }
  }

  /** Every node of the table lies at most six symbols below the root. */
  lemma PathToDepth(i: nat)
    requires i <= MaxState
    ensures |PathTo(i)| <= 6
  {
    var n := |PathTo(i)|;
    ValuePathTo(i);
    ValueDepth(PathTo(i));
    Pow2Small();
    if n > 6 {
      Pow2Monotone(7, n);
    }
  }

  /** Encoder against decoder: replaying the code of any node from the root
      ends at that node, and no step of the walk is clamped. */
  lemma WalkPathTo(i: nat)
    requires i <= MaxState
    ensures Walk(StartState, PathTo(i)) == i
  {
    WalkClamps(PathTo(i));
    ValuePathTo(i);
  }

  /** Decoder against encoder: a code of at most five symbols reaches a node below
      the last index whose path is that code, so distinct short codes reach
      distinct nodes. */
  lemma PathToWalk(code: string)
    requires IsCode(code) && |code| <= 5
    ensures Walk(StartState, code) < MaxState
    ensures PathTo(Walk(StartState, code)) == code
  {
    WalkClamps(code);
    ValueDepth(code);
    Pow2Small();
    Pow2Monotone(|code| + 1, 6);
    PathToValue(code);
  }

  /** From six symbols on, the walk sits at the last index of the table: further
      dots and dashes no longer move it. */
  lemma WalkSaturates(code: string)
    requires |code| >= 6
    ensures Walk(StartState, code) == MaxState
  {
    WalkClamps(code);
    ValueDepth(code);
    Pow2Small();
    Pow2Monotone(6, |code|);
  }

  /** `String.prototype.indexOf` for one character: the first position of `c`, or -1. */
  function IndexOf(s: string, c: char): (r: int)
    ensures -1 <= r < |s|
    ensures r == -1 <==> c !in s
    ensures r >= 0 ==> s[r] == c && c !in s[..r]
  {
    if s == [] then -1
    else if s[0] == c then 0
    else
      var k := IndexOf(s[1..], c);
      if k == -1 then -1
      else
        assert s[..k + 1] == [s[0]] + s[1..][..k];
        k + 1
  }

  /** The first occurrence is the only position the contract of `IndexOf` admits. */
  lemma IndexOfAt(s: string, c: char, k: int)
    requires 0 <= k < |s| && s[k] == c && c !in s[..k]
    ensures IndexOf(s, c) == k
  {
  }

  /** ASCII upper-casing, the part of `toUpperCase` the model keeps. */
  function Upper(c: char): (r: char)
    ensures !('a' <= r <= 'z')
    ensures 'a' <= c <= 'z' ==> 'A' <= r <= 'Z' && r as int - 'A' as int == c as int - 'a' as int
    ensures !('a' <= c <= 'z') ==> r == c
  {
    if 'a' <= c <= 'z' then (c as int - 'a' as int + 'A' as int) as char else c
  }

  // The entries of the table are checked four at a time; `TableFirst` gathers them.

  lemma TableFirstAt0(i: int)
    requires 1 <= i < 4 && Tree[i] != ErrorCode
    ensures Tree[i] !in Tree[..i] && Upper(Tree[i]) == Tree[i]
  {
  }

  lemma TableFirstAt4(i: int)
    requires 4 <= i < 8 && Tree[i] != ErrorCode
    ensures Tree[i] !in Tree[..i] && Upper(Tree[i]) == Tree[i]
  {
  }

  lemma TableFirstAt8(i: int)
    requires 8 <= i < 12 && Tree[i] != ErrorCode
    ensures Tree[i] !in Tree[..i] && Upper(Tree[i]) == Tree[i]
  {
  }

  lemma TableFirstAt12(i: int)
    requires 12 <= i < 16 && Tree[i] != ErrorCode
    ensures Tree[i] !in Tree[..i] && Upper(Tree[i]) == Tree[i]
  {
  }

  lemma TableFirstAt16(i: int)
    requires 16 <= i < 20 && Tree[i] != ErrorCode
    ensures Tree[i] !in Tree[..i] && Upper(Tree[i]) == Tree[i]
  {
  }

  lemma TableFirstAt20(i: int)
    requires 20 <= i < 24 && Tree[i] != ErrorCode
    ensures Tree[i] !in Tree[..i] && Upper(Tree[i]) == Tree[i]
  {
  }

  lemma TableFirstAt24(i: int)
    requires 24 <= i < 28 && Tree[i] != ErrorCode
    ensures Tree[i] !in Tree[..i] && Upper(Tree[i]) == Tree[i]
  {
  }

  lemma TableFirstAt28(i: int)
    requires 28 <= i < 32 && Tree[i] != ErrorCode
    ensures Tree[i] !in Tree[..i] && Upper(Tree[i]) == Tree[i]
  {
  }

  lemma TableFirstAt32(i: int)
    requires 32 <= i < 36 && Tree[i] != ErrorCode
    ensures Tree[i] !in Tree[..i] && Upper(Tree[i]) == Tree[i]
  {
  }

  lemma TableFirstAt36(i: int)
    requires 36 <= i < 40 && Tree[i] != ErrorCode
    ensures Tree[i] !in Tree[..i] && Upper(Tree[i]) == Tree[i]
  {
  }

  lemma TableFirstAt40(i: int)
    requires 40 <= i < 44 && Tree[i] != ErrorCode
    ensures Tree[i] !in Tree[..i] && Upper(Tree[i]) == Tree[i]
  {
  }

  lemma TableFirstAt44(i: int)
    requires 44 <= i < 48 && Tree[i] != ErrorCode
    ensures Tree[i] !in Tree[..i] && Upper(Tree[i]) == Tree[i]
  {
  }

  lemma TableFirstAt48(i: int)
    requires 48 <= i < 52 && Tree[i] != ErrorCode
    ensures Tree[i] !in Tree[..i] && Upper(Tree[i]) == Tree[i]
  {
  }

  lemma TableFirstAt52(i: int)
    requires 52 <= i < 56 && Tree[i] != ErrorCode
    ensures Tree[i] !in Tree[..i] && Upper(Tree[i]) == Tree[i]
  {
  }

  lemma TableFirstAt56(i: int)
    requires 56 <= i < 60 && Tree[i] != ErrorCode
    ensures Tree[i] !in Tree[..i] && Upper(Tree[i]) == Tree[i]
  {
  }

  lemma TableFirstAt60(i: int)
    requires 60 <= i < 64 && Tree[i] != ErrorCode
    ensures Tree[i] !in Tree[..i] && Upper(Tree[i]) == Tree[i]
  {
  }

  /** No entry of the table other than `?` occurs twice, and none is lower-case:
      every other entry is what `indexOf` finds for its character. */
  lemma TableFirst(i: int)
    requires 0 < i <= MaxState && Tree[i] != ErrorCode
    ensures IndexOf(Tree, Tree[i]) == i && Upper(Tree[i]) == Tree[i]
  {
    if i < 4 { TableFirstAt0(i); }
    else if i < 8 { TableFirstAt4(i); }
    else if i < 12 { TableFirstAt8(i); }
    else if i < 16 { TableFirstAt12(i); }
    else if i < 20 { TableFirstAt16(i); }
    else if i < 24 { TableFirstAt20(i); }
    else if i < 28 { TableFirstAt24(i); }
    else if i < 32 { TableFirstAt28(i); }
    else if i < 36 { TableFirstAt32(i); }
    else if i < 40 { TableFirstAt36(i); }
    else if i < 44 { TableFirstAt40(i); }
    else if i < 48 { TableFirstAt44(i); }
    else if i < 52 { TableFirstAt48(i); }
    else if i < 56 { TableFirstAt52(i); }
    else if i < 60 { TableFirstAt56(i); }
    else { TableFirstAt60(i); }
    IndexOfAt(Tree, Tree[i], i);
  }
}
